=== FILE: README.md ===
# AB test cache and bucketing engine, modelled in Dafny

This project models the two parts of the `node-cache` AB-testing service that hold real logic:

- **The bucketing engine** (`src/services/BucketingService.js`). It hashes `userID + abtestID` into a score in [0, 100). Because `parseInt` rounds the 128-bit digest to a double, which is a multiple of 16 for all but a vanishing fraction of digests, the scores that actually occur are the 625 multiples of 0.16. It then picks the first variant whose half-open range `[rangeStart, rangeEnd)` contains the score. If no range contains it, the result is `null`.
- **The experiment cache** (`src/services/ABTestCache.js`). This is an LRU cache with capacity 100, keyed by service. It loads a service's experiment set from the repository on a miss (`loadFromDB`). It also keeps hit, miss and invalidation counters, and supports invalidation, reload and a switch that turns caching off.

Everything is modelled as immutable datatypes and pure functions:

| file | module | contents |
|---|---|---|
| `outcomes.dfy` | `Outcomes` | `Option`, `Result` and the `Error` a load can fail with |
| `rows.dfy` | `Rows` | repository rows; a database snapshot answering the four repository queries |
| `transformer.dfy` | `Transformer` | `loadFromDB` as a transform; the active filter; the cache-disabled read paths; parity |
| `bucketing.dfy` | `Bucketing` | score, first-match selection, partitions of [0, 100) |
| `cache.dfy` | `ExperimentCache` | the cache state machine: fetch, reads, invalidation, initialize, reload, stats |

Modelling choices:

- **Scores in hundredths.** A score is the integer `hash(userID + abtestID) % 10000`, between 0 and 9999. The source's score is that number divided by 100. Variant bounds are likewise given in hundredths, so `rangeStart <= s/100` becomes `rangeStart*100 <= s` and no floating point is needed.
- **The hash is a parameter.** `hash: string -> nat` stands for the integer value of the double that `parseInt(md5hex, 16)` yields. That double keeps 53 significant bits, so a digest of 2^56 or more is a multiple of 16, and since 16 divides 10000 its score is a multiple of 16 hundredths (`Bucketing.RoundedDigestScore`). `JSON.parse` is also a parameter, `parse: string -> Option<Json>`, which may reject its text.
- **The database is a snapshot value.** Each query on it either returns rows or fails, and failure is part of the snapshot. The clock is a parameter too: `clock` stamps `loadedAt`, and `now` is the instant used by the active filter.
- **The cache state** is a map from service to experiment set, a recency order (least recently used first), the three counters and the `enabled` switch, which replaces `ABTEST_CACHE_ENABLED`. An operation that can throw returns a `Step`: the state it leaves behind plus a `Result`. The JavaScript methods change the cache before they throw, and `Step` keeps that.

Four behaviours of the code that a reader might not expect, all modelled as written:

- **Variants lose their row data.** The variant projection in `loadFromDB` reads `vrnt_id`, `vrnt_key`, `vrnt_ratio` and `vrnt_payload`. The variant query returns `ab_test_vrt_id`, `vrt_key`, `vrt_vl`, `vrt_rng_strt` and `vrt_rng_end` instead. So every transformed variant is `{id: undefined, key: undefined, ratio: undefined, payload: {}}`, and a variant payload can never fail to parse (`Transformer.TransformVariant`, `Transformer.TransformedVariantsCarryNoRowData`). The bucketing engine's `Variant` with its two bounds is therefore a separate type.
- **A load counts a miss and a hit.** A read that triggers a load counts a miss inside `loadFromDB` and then a hit in the read method, so hits and misses are not exclusive: the hit count is the number of successful cached reads, not the number of reads served without a load.
- **The uncached read is not always equal to the cached one.** The cache-disabled `getActiveTests` filters the rows before it parses them and never reads the group table. So it can succeed where a cached load fails. Parity holds in one direction: whenever the load succeeds, both paths return the same tests (`Transformer.ActiveTestsParity`, `Transformer.ParityIsOneWay`).
- **`reload` ignores the switch and does not count.** `reload` does not check whether caching is enabled. Its `clear` does not count as an invalidation.

## Model

| member | source | states |
|---|---|---|
| `Bucketing.Score` | src/services/BucketingService.js:3-14 | the score reduces the digest modulo 10000, so it lies in [0, 10000) hundredths, i.e. [0, 100) |
| `Bucketing.RoundedDigestScore` | src/services/BucketingService.js:8 | a digest that is a multiple of 16, as every double of 2^56 or more is, gives a score that is a multiple of 16 hundredths (0.16) |
| `Bucketing.ScoreDependsOnlyOnConcatenation` | src/services/BucketingService.js:5 | two (user, test) pairs with the same concatenation get the same score, e.g. "u1"+"23" and "u12"+"3" |
| `Bucketing.FirstMatch` | src/services/BucketingService.js:18-20 | the index found holds the score and no earlier variant does; none is found exactly when no variant holds the score |
| `Bucketing.FirstMatchIff` | src/services/BucketingService.js:18-20 | index `i` is selected if and only if variant `i` holds the score and no earlier variant does |
| `Bucketing.DecideVariant` | src/services/BucketingService.js:16-29 | the result is null exactly when no variant holds the score; otherwise it is an element of the list that holds the score with no earlier element holding it |
| `Bucketing.DecideVariantIsFirstOfMatches` | src/services/BucketingService.js:18-28 | the result is the head of the list of all matching variants in list order, so with overlaps the earliest listed wins, and an empty list gives null |
| `Bucketing.UpperBoundExcluded` | src/services/BucketingService.js:19 | a score equal to a variant's `rangeEnd` never selects that variant |
| `Bucketing.LowerBoundIncluded` | src/services/BucketingService.js:19 | a score equal to a non-empty variant's `rangeStart` selects it when no earlier variant holds the score |
| `Bucketing.TilesExactlyOne` | src/services/BucketingService.js:18-20 | variants laid contiguously over an interval place every score of that interval in exactly one variant |
| `Bucketing.PartitionSelectsExactlyOne` | src/services/BucketingService.js:18-20 | on a contiguous partition of [0, 100) every score selects exactly one variant and the result is never null |
| `Bucketing.OutsideTilingSelectsNothing` | src/services/BucketingService.js:18-28 | a score outside the interval the variants cover gives null, e.g. [80, 100) for variants covering [0, 80) |
| `Bucketing.Layout` | scripts/seed-database.js:131-137 | variant `j` gets key `j` and the range `[start + j*width, start + (j+1)*width)`, so equal-width variants laid side by side tile the covered interval |
| `Bucketing.SeededVariants` | scripts/seed-database.js:131-137 | variant `j` of `n` gets key `j` and the range `j*(10000/n) .. (j+1)*(10000/n)` hundredths, the seeder's `j*100/n .. (j+1)*100/n`, and the layout is a partition of [0, 100) whenever n divides the score range |
| `Bucketing.SeededFiveVariants` | scripts/seed-database.js:25 | with five variants A..E the seeded ranges are 0-20, 20-40, 40-60, 60-80 and 80-100 |
| `Bucketing.ProcessBucketing` | src/services/BucketingService.js:31-35 | scores the request's user in the experiment, and returns null exactly when no variant holds that score, otherwise the first listed variant holding it |
| `Bucketing.ProcessBucketingTotalOnPartition` | src/services/BucketingService.js:31-35 | on a partitioned variant list every user is assigned some variant |
| `Bucketing.ProcessMeeBucketing` | src/services/BucketingService.js:37-41 | returns the user's score in the group, a value in [0, 10000) hundredths |
| `Rows.RowsOf` | src/services/ABTestCache.js:43-44 | the grouped variant rows are exactly the rows carrying the test's id |
| `Rows.TestIds` | src/services/ABTestCache.js:28 | the id list has one entry per test row, the row's `ab_test_id`, in row order |
| `Rows.RowsOfAppend` | src/services/ABTestCache.js:43-44 | grouping splits over concatenation, so grouped rows keep their table order |
| `Rows.RowsIn` | src/repository/ABTestRepository.js:50 | the `IN (...)` filter keeps exactly the rows whose test id is listed |
| `Rows.VariantRows` | src/repository/ABTestRepository.js:35-51 | an empty id list answers `[]` without a query; otherwise the query fails exactly when the variant table cannot be read, and returns exactly the table rows whose test id is listed |
| `Rows.RowsOfRowsIn` | src/services/ABTestCache.js:28-44 | grouping the queried rows by a listed test id gives the same rows, in order, as grouping the whole table |
| `Transformer.ParseBlob` | src/services/ABTestCache.js:40 | a NULL or empty blob column reads as `{}`; parsing fails exactly when a non-empty text is rejected by the parser |
| `Transformer.TransformVariant` | src/services/ABTestCache.js:45-50 | the projection reads columns the variant query never returns, so id, key and ratio are undefined and the payload is `JSON.parse('{}')` |
| `Transformer.TransformedVariantsCarryNoRowData` | src/services/ABTestCache.js:45-50 | the variant projection reads columns the query never returns, so every transformed variant is the same `{undefined, undefined, undefined, {}}` |
| `Transformer.VariantsOf` | src/services/ABTestCache.js:43-50 | a test gets one transformed variant per variant row with its id, in row order |
| `Transformer.TransformTest` | src/services/ABTestCache.js:35-51 | a test row transforms unless its filter blob is malformed; id, name, type, status and dates come from the row, the filter is the parsed blob (`{}` for NULL or empty), and the variants are the test's variant rows |
| `Transformer.TransformTests` | src/services/ABTestCache.js:35-51 | the map fails exactly when some row's blob is malformed; otherwise it yields one test per row, in row order |
| `Transformer.FirstGroupId` | src/services/ABTestCache.js:56 | the group id is the first group row's id, undefined when there are no rows |
| `Transformer.VariantRowsForTests` | src/services/ABTestCache.js:29-31 | with no test rows the variant query is skipped and the rows are `[]`; otherwise they are the variant query's answer for the rows' ids |
| `Transformer.LoadFromDB` | src/services/ABTestCache.js:26-60 | a load succeeds exactly when the test query, the variant query (only if there are tests), the group query and every blob parse succeed; it stamps `loadedAt` and has one test per test row |
| `Transformer.LoadFromDBShape` | src/services/ABTestCache.js:35-51 | test `i` is test row `i`, with its id, name, type, status, dates and parsed filter, and its variants are exactly the variant rows carrying its id, in table order |
| `Transformer.LoadSkipsVariantQueryWithoutTests` | src/services/ABTestCache.js:28-31 | with no test rows the variant table is never consulted, so a failing variant query cannot fail the load, and the set has no tests |
| `Transformer.FilterActive` | src/services/ABTestCache.js:149-153 | keeps exactly the tests with status ACTIVE and `startDate <= now <= endDate`, both bounds inclusive |
| `Transformer.FilterActiveAppend` | src/services/ABTestCache.js:149-153 | the active filter splits over concatenation, so it keeps the stored order |
| `Transformer.FilterActiveRows` | src/services/ABTestCache.js:120-123 | keeps exactly the rows with status ACTIVE whose window contains `now` |
| `Transformer.FilterThenTransform` | src/services/ABTestCache.js:120-140 | filtering rows and then transforming them equals transforming all rows and then filtering, when the full transform succeeds |
| `Transformer.DirectActiveTests` | src/services/ABTestCache.js:111-141 | the uncached path succeeds exactly when the test query succeeds, the variant query succeeds if there are tests, and every active row's filter blob parses; it then returns, in row order, the full transform (name, type, status, parsed filter, dates, variants) of each active row and nothing else |
| `Transformer.ActiveTestsParity` | src/services/ABTestCache.js:111-153 | whenever the cached path's load succeeds, the uncached path returns exactly the loaded tests active at `now`, in order |
| `Transformer.ParityIsOneWay` | src/services/ABTestCache.js:120-129 | an inactive test with a malformed blob fails the load, while the uncached path filters it out before parsing and succeeds |
| `Transformer.DirectMeeGroupId` | src/services/ABTestCache.js:100-103 | the uncached group lookup fails exactly when the group query fails, is undefined exactly when there are no group rows, and is otherwise the first row's `mee_group_id` |
| `Transformer.MeeGroupParity` | src/services/ABTestCache.js:99-107 | a successful load reports the same group id as the uncached lookup |
| `ExperimentCache.New` | src/services/ABTestCache.js:5-20 | a new cache is empty, well formed, with all three counters at zero |
| `ExperimentCache.SizeBound` | src/services/ABTestCache.js:7 | a well-formed cache holds at most 100 services, one per recency slot |
| `ExperimentCache.Insert` | src/services/ABTestCache.js:6-7 | storing a set keeps the state well formed and makes the key most recent; a new key meeting a full cache evicts exactly the least recently used service, otherwise nothing is evicted |
| `ExperimentCache.Fetch` | src/services/ABTestCache.js:6-13 | a hit returns the stored set and refreshes its recency with no miss; a miss returns the load result, stores it as most recent (appended to the recency order when there is room) and counts one miss; a failed load changes nothing; hits and invalidations never change |
| `ExperimentCache.Touch` | src/services/ABTestCache.js:105 | a cache hit keeps the entries, counters and switch and makes the service the most recently used |
| `ExperimentCache.Hit` | src/services/ABTestCache.js:106 | a served read counts one hit and changes nothing else |
| `ExperimentCache.FullCacheEvictsLeastRecent` | src/services/ABTestCache.js:7 | a successful miss on a full cache evicts exactly the least recently used service and keeps every other one |
| `ExperimentCache.GetMeeGroupId` | src/services/ABTestCache.js:99-108 | disabled: the direct lookup with no state change; enabled: a hit returns the group id cached before the call, keeps the entries and makes the service most recent; a miss fails exactly when the load fails, otherwise stores the load, returns the direct lookup's value and, when the cache is full, evicts exactly the least recently used service; one hit per successful call, one extra miss when it loaded, no change on failure, no other service added or changed |
| `ExperimentCache.GetActiveTests` | src/services/ABTestCache.js:110-154 | disabled: the direct path with no state change; enabled: a hit returns the cached tests active at `now`, keeps the entries and makes the service most recent; a miss fails exactly when the load fails, otherwise stores the load, returns the direct path's value and, when the cache is full, evicts exactly the least recently used service; one hit per successful call, one extra miss when it loaded, no change on failure, no other service added or changed |
| `ExperimentCache.Invalidate` | src/services/ABTestCache.js:84-88 | removes the service, keeps every other entry, and counts exactly one invalidation even when the service was absent; hits and misses unchanged |
| `ExperimentCache.InvalidateAll` | src/services/ABTestCache.js:90-94 | empties the cache and counts exactly one invalidation, not one per entry |
| `ExperimentCache.InvalidateThenFetchReloads` | src/services/ABTestCache.js:84-88 | after invalidating a service the next fetch loads it afresh and counts one miss |
| `ExperimentCache.FetchAll` | src/services/ABTestCache.js:75-77 | fetching a list of services succeeds whenever every listed load succeeds and fails only when some listed load fails; it keeps the cache well formed, never counts hits or invalidations, and counts at most one miss per service |
| `ExperimentCache.FetchAllOnlyLoadsListed` | src/services/ABTestCache.js:162-164 | after fetching a list, every cached service either kept its old set or is listed and holds its load result |
| `ExperimentCache.FetchAllLoadsEach` | src/services/ABTestCache.js:162-164 | fetching distinct uncached services into a cache with room caches all of them in listing order (the recency order gains the services in the order listed), evicts nothing and counts one miss each |
| `ExperimentCache.Reload` | src/services/ABTestCache.js:159-165 | clears first without counting an invalidation; a failed listing is reported and leaves the cache empty; otherwise it succeeds whenever every listed load succeeds and fails only when one fails; every service cached afterwards is listed and holds its fresh load |
| `ExperimentCache.ReloadLoadsEveryService` | src/services/ABTestCache.js:159-165 | a successful reload of at most 100 distinct services caches exactly those services with their fresh loads, leaves them in listing order from least to most recent, and counts one miss each |
| `ExperimentCache.Initialize` | src/services/ABTestCache.js:65-79 | does nothing when caching is disabled; otherwise a failed listing is reported, and it succeeds whenever every listed load succeeds and fails only when one fails; every service it adds is listed and holds its load, and a service cached before either keeps its set or is listed and holds its load |
| `ExperimentCache.InitializeKeepsAndLoads` | src/services/ABTestCache.js:65-79 | without clearing: when the listed services are distinct, uncached and fit, a successful initialize keeps the old services with their old sets and adds exactly the listed ones with their loads, after the old ones in listing order, one miss each |
| `ExperimentCache.GetStats` | src/services/ABTestCache.js:170-176 | reports the three counters, the switch, and a cache size that never exceeds 100 |

## Left out

- MD5 and `parseInt` of the 32-digit hex digest: the hash is an abstract `hash: string -> nat`, to be read as the integer value of the rounded double `parseInt` returns. The rounding itself is not computed; its consequence, that real scores are multiples of 16 hundredths, is stated by `Bucketing.RoundedDigestScore` for digests that are multiples of 16.
- Bucketing.Score: the model compares integer hundredths. The source compares doubles (`hashMod / 100` against range bounds). The two agree for bounds with at most two decimals, which is how the seeder writes them.
- `Promise.all` over the variant list, `async`/`await`, concurrent callers, and the single-flight deduplication of `lru-cache`'s `fetch`: the model is sequential.
- ExperimentCache.Fetch: a failed load leaves the state unchanged. `lru-cache` may already have evicted the least recently used entry to make room for the pending load, but that library is not part of this model.
- LRU internals beyond the capacity of 100 and a recency order (TTL, staleness, size accounting): `lru-cache` is not part of this model.
- `JSON.parse` is the abstract parser `parse`. JSON numbers are kept as integers.
- Dates are integer millisecond timestamps. The `toISOString` / `new Date` round trip is taken as the identity, and NULL or invalid dates are not modelled.
- The `if (!data) return []` branch of `getActiveTests` (src/services/ABTestCache.js:144) is not modelled. `loadFromDB` always returns an object or throws, so a fetch never yields an empty value, and a failed fetch propagates its error.
- `loadedAt` comes from the `clock` parameter. Within one `reload` or `initialize`, every load is stamped with the same instant.
- SQL and the connection pool (`src/repository/ABTestRepository.js`, `src/config/database.js`) are replaced by the snapshot value in `Rows`. Rows come back in table order, and only rows with `use_yn = 'Y'` are in the snapshot.
- `src/app.js` (HTTP routing, GC and latency metrics, float formatting) is not modelled. It calls `abTestCache.getData`, which the cache does not define.
- Everything under `scripts/` except the seeder's variant layout: benchmarks, load and GC tests, and random seeding.
- Console logging is not modelled. The `ABTEST_CACHE_ENABLED` environment variable is replaced by the cache's `enabled` field.

=== FILE: bucketing.dfy ===
/** The bucketing engine: a user's score for an experiment, and the variant whose
    range holds that score.

    Scores are kept in hundredths of a percentage point.  The source computes
    `parseInt(md5hex, 16) % 10000 / 100`; here the score is the integer
    `digest % 10000` in [0, 10000) and variant bounds are the source's bounds
    multiplied by 100, so that `start <= s/100` becomes `start * 100 <= s` and no
    floating point is involved.  The digest is a parameter `hash`, standing for
    the integer value of the double that `parseInt` makes of the 32 hex digits.
    That double is rounded to 53 significant bits, so unless the digest is below
    2^56 it is a multiple of 16; since 16 divides 10000 the score is then a
    multiple of 16 hundredths, one of 625 values 0.16 apart
    (`RoundedDigestScore`).
 */
module Bucketing {
  import opened Outcomes

  /** Number of distinct scores: the digest is reduced modulo 10000. */
  const Buckets: nat := 10000

  /** The bucketing score of `userID` in experiment `abtestID`.  When `userID`
      is a string, a numeric `abtestID` enters as its decimal text, as
      JavaScript's `+` converts it. */
  function Score(hash: string -> nat, userID: string, abtestID: string): (s: nat)
    ensures s < Buckets
  {
    hash(userID + abtestID) % Buckets
  }

  /** The score sees only the concatenated string, so ("u1", "23") and
      ("u12", "3") always land in the same bucket. */
  lemma ScoreDependsOnlyOnConcatenation(hash: string -> nat, u1: string, t1: string, u2: string, t2: string)
    requires u1 + t1 == u2 + t2
    ensures Score(hash, u1, t1) == Score(hash, u2, t2)
  {
  }

  /** A digest that is a multiple of 16, as every double of 2^56 or more is,
      gives a score that is a multiple of 16 hundredths. */
  lemma RoundedDigestScore(hash: string -> nat, userID: string, abtestID: string)
    requires hash(userID + abtestID) % 16 == 0
    ensures Score(hash, userID, abtestID) % 16 == 0
  {
  }

  /** A variant as the bucketing engine sees it: a half-open range of scores. */
  datatype Variant = Variant(key: string, rangeStart: int, rangeEnd: int)

  /** The lower bound is inclusive, the upper bound exclusive. */
  predicate Contains(v: Variant, score: int)
  {
    v.rangeStart <= score < v.rangeEnd
  }

  /** Index of the first variant, in list order, whose range holds `score`. */
  function FirstMatch(score: int, vs: seq<Variant>): (r: Option<nat>)
    ensures r.Some? ==> r.value < |vs| && Contains(vs[r.value], score)
    ensures r.Some? ==> forall j | 0 <= j < r.value :: !Contains(vs[j], score)
    ensures r.None? <==> forall j | 0 <= j < |vs| :: !Contains(vs[j], score)
  {
    if |vs| == 0 then None
    else if Contains(vs[0], score) then Some(0)
    else match FirstMatch(score, vs[1..])
      case None => None
      case Some(i) => Some(i + 1)
  }

  /** `FirstMatch` names index `i` exactly when `vs[i]` holds the score and no
      earlier variant does. */
  lemma FirstMatchIff(score: int, vs: seq<Variant>, i: nat)
    requires i < |vs|
    ensures FirstMatch(score, vs) == Some(i)
        <==> Contains(vs[i], score) && forall j | 0 <= j < i :: !Contains(vs[j], score)
  {
  }

  /** `decideVariant`: the first variant whose range holds the score, or none. */
  function DecideVariant(score: int, vs: seq<Variant>): (r: Option<Variant>)
    ensures r.None? <==> forall j | 0 <= j < |vs| :: !Contains(vs[j], score)
    ensures r.Some? ==> exists i | 0 <= i < |vs| ::
      && vs[i] == r.value
      && Contains(vs[i], score)
      && forall j | 0 <= j < i :: !Contains(vs[j], score)
  {
    match FirstMatch(score, vs)
    case None => None
    case Some(i) => Some(vs[i])
  }

  /** Every variant that holds `score`, in list order: an independent
      description of the search. */
  function Matches(score: int, vs: seq<Variant>): seq<Variant>
  {
    if |vs| == 0 then []
    else if Contains(vs[0], score) then [vs[0]] + Matches(score, vs[1..])
    else Matches(score, vs[1..])
  }

  /** The engine picks the head of the matching variants; with overlapping
      ranges the earliest listed one wins, and an empty match list gives none. */
  lemma {:induction false} DecideVariantIsFirstOfMatches(score: int, vs: seq<Variant>)
    ensures DecideVariant(score, vs) == (if |Matches(score, vs)| == 0 then None else Some(Matches(score, vs)[0]))
    decreases |vs|
  {
    if |vs| > 0 && !Contains(vs[0], score) {
      DecideVariantIsFirstOfMatches(score, vs[1..]);
      assert FirstMatch(score, vs) == match FirstMatch(score, vs[1..]) case None => None case Some(i) => Some(i + 1);
    }
  }

  /** A score equal to a variant's upper bound never selects that variant. */
  lemma UpperBoundExcluded(score: int, vs: seq<Variant>, i: nat)
    requires i < |vs| && score == vs[i].rangeEnd
    ensures FirstMatch(score, vs) != Some(i)
  {
  }

  /** A score equal to a variant's lower bound selects it unless an earlier
      variant already holds the score. */
  lemma LowerBoundIncluded(score: int, vs: seq<Variant>, i: nat)
    requires i < |vs| && vs[i].rangeStart == score < vs[i].rangeEnd
    requires forall j | 0 <= j < i :: !Contains(vs[j], score)
    ensures FirstMatch(score, vs) == Some(i)
    ensures DecideVariant(score, vs) == Some(vs[i])
  {
    FirstMatchIff(score, vs, i);
  }

  /** The variants lay out `[lo, hi)` left to right, each starting where the
      previous one ended, with no range running backwards. */
  predicate Tiles(vs: seq<Variant>, lo: int, hi: int)
    decreases |vs|
  {
    if |vs| == 0 then lo == hi
    else vs[0].rangeStart == lo && vs[0].rangeStart <= vs[0].rangeEnd && Tiles(vs[1..], vs[0].rangeEnd, hi)
  }

  /** The well-formed layout a test's variants are assumed to have: a tiling of
      every score. */
  predicate IsPartition(vs: seq<Variant>)
  {
    Tiles(vs, 0, Buckets)
  }

  /** Every range of a tiling lies inside the tiled interval. */
  lemma {:induction false} TilesBounds(vs: seq<Variant>, lo: int, hi: int)
    requires Tiles(vs, lo, hi)
    ensures lo <= hi
    ensures forall j | 0 <= j < |vs| :: lo <= vs[j].rangeStart && vs[j].rangeEnd <= hi
    decreases |vs|
  {
    if |vs| > 0 {
      TilesBounds(vs[1..], vs[0].rangeEnd, hi);
      forall j | 1 <= j < |vs|
        ensures lo <= vs[j].rangeStart && vs[j].rangeEnd <= hi
      {
        assert vs[j] == vs[1..][j - 1];
      }
    }
  }

  /** Inside a tiling every score lies in exactly one variant. */
  lemma {:induction false} TilesExactlyOne(vs: seq<Variant>, lo: int, hi: int, score: int)
    requires Tiles(vs, lo, hi) && lo <= score < hi
    ensures exists i | 0 <= i < |vs| ::
      Contains(vs[i], score) && forall j | 0 <= j < |vs| && j != i :: !Contains(vs[j], score)
    decreases |vs|
  {
    assert |vs| > 0;
    var rest := vs[1..];
    TilesBounds(rest, vs[0].rangeEnd, hi);
    if score < vs[0].rangeEnd {
      forall j | 0 <= j < |vs| && j != 0
        ensures !Contains(vs[j], score)
      {
        assert vs[j] == rest[j - 1];
      }
      assert Contains(vs[0], score);
    } else {
      TilesExactlyOne(rest, vs[0].rangeEnd, hi, score);
      var k :| 0 <= k < |rest| && Contains(rest[k], score)
        && forall j | 0 <= j < |rest| && j != k :: !Contains(rest[j], score);
      forall j | 0 <= j < |vs| && j != k + 1
        ensures !Contains(vs[j], score)
      {
        if j > 0 {
          assert vs[j] == rest[j - 1];
        }
      }
      assert Contains(vs[k + 1], score);
    }
  }

  /** On a partition of [0, 10000) every score selects exactly one variant and
      the result is never none. */
  lemma PartitionSelectsExactlyOne(vs: seq<Variant>, score: int)
    requires IsPartition(vs) && 0 <= score < Buckets
    ensures exists i | 0 <= i < |vs| ::
      && DecideVariant(score, vs) == Some(vs[i])
      && forall j | 0 <= j < |vs| && j != i :: !Contains(vs[j], score)
  {
    TilesExactlyOne(vs, 0, Buckets, score);
    var i :| 0 <= i < |vs| && Contains(vs[i], score)
      && forall j | 0 <= j < |vs| && j != i :: !Contains(vs[j], score);
    FirstMatchIff(score, vs, i);
  }

  /** Scores outside the tiled interval match nothing: variants covering only
      [0, 8000) give none for every score in [8000, 10000). */
  lemma OutsideTilingSelectsNothing(vs: seq<Variant>, lo: int, hi: int, score: int)
    requires Tiles(vs, lo, hi) && (score < lo || hi <= score)
    ensures DecideVariant(score, vs) == None
  {
    TilesBounds(vs, lo, hi);
  }

  /** One variant per key, each `width` wide, laid side by side from `start`. */
  function Layout(keys: seq<string>, width: nat, start: int): (vs: seq<Variant>)
    ensures |vs| == |keys|
    ensures forall j | 0 <= j < |vs| :: vs[j].key == keys[j]
    ensures Tiles(vs, start, start + |keys| * width)
    ensures forall j | 0 <= j < |vs| :: vs[j].rangeStart == start + j * width && vs[j].rangeEnd == start + (j + 1) * width
    decreases |keys|
  {
    if |keys| == 0 then []
    else
      var rest := Layout(keys[1..], width, start + width);
      assert start + width + (|keys| - 1) * width == start + |keys| * width;
      assert ([Variant(keys[0], start, start + width)] + rest)[1..] == rest;
      [Variant(keys[0], start, start + width)] + rest
  }

  /** The seeding script's layout: variant `j` of `n` gets `[j * 10000/n,
      (j + 1) * 10000/n)`; whenever `n` divides 10000 this is a partition. */
  function SeededVariants(keys: seq<string>): (vs: seq<Variant>)
    requires 0 < |keys| && Buckets % |keys| == 0
    ensures |vs| == |keys| && IsPartition(vs)
    ensures forall j | 0 <= j < |vs| ::
      && vs[j].key == keys[j]
      && vs[j].rangeStart == j * (Buckets / |keys|)
      && vs[j].rangeEnd == (j + 1) * (Buckets / |keys|)
  {
    var width := Buckets / |keys|;
    assert |keys| * width == Buckets;
    Layout(keys, width, 0)
  }

  /** With five variants A..E, as the seeding script writes them, the ranges
      are 20 points (2000 hundredths) wide. */
  lemma SeededFiveVariants()
    ensures SeededVariants(["A", "B", "C", "D", "E"]) ==
      [ Variant("A", 0, 2000), Variant("B", 2000, 4000), Variant("C", 4000, 6000),
        Variant("D", 6000, 8000), Variant("E", 8000, 10000) ]
  {
  }

  /** The part of the request the engine reads. */
  datatype Request = Request(userID: string)

  /** `processBucketing`: score the request's user in experiment `abtestID`
      and pick that score's variant. */
  function ProcessBucketing(hash: string -> nat, abtestID: string, variants: seq<Variant>, request: Request): (r: Option<Variant>)
    ensures var s := Score(hash, request.userID, abtestID);
      && (r.None? <==> forall j | 0 <= j < |variants| :: !Contains(variants[j], s))
      && (r.Some? ==> exists i | 0 <= i < |variants| ::
            && variants[i] == r.value
            && Contains(variants[i], s)
            && forall j | 0 <= j < i :: !Contains(variants[j], s))
  {
    DecideVariant(Score(hash, request.userID, abtestID), variants)
  }

  /** On a partitioned variant list every user is assigned a variant. */
  lemma ProcessBucketingTotalOnPartition(hash: string -> nat, abtestID: string, variants: seq<Variant>, request: Request)
    requires IsPartition(variants)
    ensures ProcessBucketing(hash, abtestID, variants, request).Some?
  {
    PartitionSelectsExactlyOne(variants, Score(hash, request.userID, abtestID));
  }

  /** `processMeeBucketing`: the bare score of the user in a group. */
  function ProcessMeeBucketing(hash: string -> nat, userId: string, meeGroupId: string): (s: nat)
    ensures s < Buckets
    ensures s == Score(hash, userId, meeGroupId)
  {
    Score(hash, userId, meeGroupId)
  }
}

=== FILE: cache.dfy ===
/** The experiment cache (`ABTestCache`) as a sequential state machine.

    The state is the LRU map from service to experiment set, its recency order
    (least recently used first), the three counters and the enabled switch.
    Every operation is a pure transition; one that can fail returns the state
    it leaves behind together with its outcome, because the JavaScript methods
    mutate the cache before they throw.
 */
module ExperimentCache {
  import opened Outcomes
  import opened Rows
  import opened Transformer

  /** The LRU's `max`. */
  const Capacity: nat := 100

  datatype Counters = Counters(hits: nat, misses: nat, invalidations: nat)

  datatype Cache = Cache(
    entries: map<string, ExperimentSet>,
    recency: seq<string>,
    stats: Counters,
    enabled: bool)

  /** Where loads come from: the database snapshot, `JSON.parse`, and the clock
      reading stamped on a load as `loadedAt`. */
  datatype Backend = Backend(repo: Repository, parse: Parser, clock: int)

  /** The state an operation leaves, and what it returned or threw. */
  datatype Step<T> = Step(cache: Cache, out: Result<T>)

  /** What `getStats` reports. */
  datatype StatsView = StatsView(hits: nat, misses: nat, invalidations: nat, cacheSize: nat, cacheEnabled: bool)

  predicate Distinct(s: seq<string>)
  {
    forall i, j | 0 <= i < j < |s| :: s[i] != s[j]
  }

  /** The recency order lists each cached service once, and the cache holds
      at most `Capacity` services. */
  ghost predicate Valid(c: Cache)
  {
    && Distinct(c.recency)
    && (forall k :: k in c.entries <==> k in c.recency)
    && |c.recency| <= Capacity
  }

  /** The constructor: an empty cache with zeroed counters. */
  function New(enabled: bool): (c: Cache)
    ensures Valid(c) && |c.entries| == 0
    ensures c.stats == Counters(0, 0, 0) && c.enabled == enabled
  {
    Cache(map[], [], Counters(0, 0, 0), enabled)
  }

  /** Putting a new element in front keeps a listing duplicate-free. */
  lemma DistinctCons(x: string, s: seq<string>)
    requires Distinct(s) && x !in s
    ensures Distinct([x] + s)
  {
    forall i, j | 0 <= i < j < |[x] + s|
      ensures ([x] + s)[i] != ([x] + s)[j]
    {
      assert ([x] + s)[j] == s[j - 1];
      if i > 0 {
        assert ([x] + s)[i] == s[i - 1];
      }
    }
  }

  /** Appending a new element keeps a listing duplicate-free. */
  lemma DistinctSnoc(s: seq<string>, x: string)
    requires Distinct(s) && x !in s
    ensures Distinct(s + [x])
  {
    forall i, j | 0 <= i < j < |s + [x]|
      ensures (s + [x])[i] != (s + [x])[j]
    {
      assert (s + [x])[i] == s[i];
    }
  }

  /** A duplicate-free listing of a key set has as many elements as the set. */
  lemma {:induction false} DistinctSize(r: seq<string>, keys: set<string>)
    requires Distinct(r)
    requires forall k :: k in keys <==> k in r
    ensures |keys| == |r|
    decreases |r|
  {
    if |r| == 0 {
      assert keys == {};
    } else {
      var rest := keys - {r[0]};
      forall k
        ensures k in rest <==> k in r[1..]
      {
        if k in r[1..] {
          var j :| 0 <= j < |r[1..]| && r[1..][j] == k;
          assert r[j + 1] == k;
        }
      }
      DistinctSize(r[1..], rest);
    }
  }

  /** The cache never holds more than `Capacity` services. */
  lemma SizeBound(c: Cache)
    requires Valid(c)
    ensures |c.entries| == |c.recency| <= Capacity
  {
    DistinctSize(c.recency, c.entries.Keys);
  }

  /** The recency order with `k` taken out. */
  function Without(r: seq<string>, k: string): (r': seq<string>)
    requires Distinct(r)
    ensures Distinct(r')
    ensures forall x :: x in r' <==> x in r && x != k
    ensures |r'| == if k in r then |r| - 1 else |r|
    decreases |r|
  {
    if |r| == 0 then []
    else if r[0] == k then
      assert forall x | x in r[1..] :: x != k;
      r[1..]
    else
      var rest := Without(r[1..], k);
      DistinctCons(r[0], rest);
      [r[0]] + rest
  }

  /** A cache hit marks `k` most recently used. */
  function Touch(c: Cache, k: string): (c': Cache)
    requires Valid(c) && k in c.entries
    ensures Valid(c')
    ensures c'.entries == c.entries && c'.stats == c.stats && c'.enabled == c.enabled
    ensures c'.recency[|c'.recency| - 1] == k
  {
    var rest := Without(c.recency, k);
    DistinctSnoc(rest, k);
    c.(recency := rest + [k])
  }

  /** The LRU's `set`: store `v` under `k` as most recently used, first
      evicting the least recently used service when a new key meets a full
      cache. */
  function Insert(c: Cache, k: string, v: ExperimentSet): (c': Cache)
    requires Valid(c)
    ensures Valid(c')
    ensures k in c'.entries && c'.entries[k] == v
    ensures c'.recency[|c'.recency| - 1] == k
    ensures forall x | x in c'.entries && x != k :: x in c.entries && c'.entries[x] == c.entries[x]
    ensures k !in c.entries && |c.recency| < Capacity ==> c'.recency == c.recency + [k]
    ensures k in c.entries || |c.recency| < Capacity ==>
      && (forall x | x in c.entries :: x in c'.entries)
      && |c'.recency| == |c.recency| + (if k in c.entries then 0 else 1)
    ensures k !in c.entries && |c.recency| == Capacity ==>
      && c.recency[0] !in c'.entries
      && forall x | x in c.entries && x != c.recency[0] :: x in c'.entries
    ensures c'.stats == c.stats && c'.enabled == c.enabled
  {
    if k in c.entries then
      var rest := Without(c.recency, k);
      DistinctSnoc(rest, k);
      c.(entries := c.entries[k := v], recency := rest + [k])
    else if |c.recency| < Capacity then
      DistinctSnoc(c.recency, k);
      c.(entries := c.entries[k := v], recency := c.recency + [k])
    else
      var lru := c.recency[0];
      var kept := c.recency[1..];
      assert forall x | x in kept :: x != lru;
      DistinctSnoc(kept, k);
      c.(entries := (c.entries - {lru})[k := v], recency := kept + [k])
  }

  /** The LRU's `fetch` with `loadFromDB` as its fetch method.  A hit returns
      the stored set and refreshes its recency; a miss loads, counts one miss
      and stores the result; a failed load changes nothing. */
  function Fetch(c: Cache, b: Backend, service: string): (r: Step<ExperimentSet>)
    requires Valid(c)
    ensures Valid(r.cache)
    ensures r.cache.stats.hits == c.stats.hits && r.cache.stats.invalidations == c.stats.invalidations
    ensures r.cache.enabled == c.enabled
    ensures r.out.Ok? ==> service in r.cache.entries && r.cache.entries[service] == r.out.value
    ensures forall x | x in r.cache.entries && x != service :: x in c.entries && r.cache.entries[x] == c.entries[x]
    ensures service in c.entries ==>
      && r.out == Ok(c.entries[service])
      && r.cache.entries == c.entries
      && r.cache.stats.misses == c.stats.misses
      && r.cache.recency[|r.cache.recency| - 1] == service
    ensures service !in c.entries ==>
      && (r.out.Err? <==> LoadFromDB(b.repo, b.parse, b.clock, service).Err?)
      && (r.out.Err? ==> r.cache == c && r.out.error == LoadFromDB(b.repo, b.parse, b.clock, service).error)
      && (r.out.Ok? ==> r.out.value == LoadFromDB(b.repo, b.parse, b.clock, service).value)
      && r.cache.stats.misses == c.stats.misses + (if r.out.Ok? then 1 else 0)
    ensures service !in c.entries && |c.recency| < Capacity && r.out.Ok? ==>
      && r.cache.entries.Keys == c.entries.Keys + {service}
      && r.cache.recency == c.recency + [service]
  {
    if service in c.entries then
      Step(Touch(c, service), Ok(c.entries[service]))
    else match LoadFromDB(b.repo, b.parse, b.clock, service)
      case Err(e) => Step(c, Err(e))
      case Ok(loaded) =>
        var counted := c.(stats := c.stats.(misses := c.stats.misses + 1));
        Step(Insert(counted, service, loaded), Ok(loaded))
  }

  /** A miss on a full cache evicts exactly the least recently used service
      and keeps every other one. */
  lemma FullCacheEvictsLeastRecent(c: Cache, b: Backend, service: string)
    requires Valid(c) && |c.recency| == Capacity && service !in c.entries
    requires LoadFromDB(b.repo, b.parse, b.clock, service).Ok?
    ensures var r := Fetch(c, b, service).cache;
      && c.recency[0] !in r.entries
      && service in r.entries
      && forall x | x in c.entries && x != c.recency[0] :: x in r.entries && r.entries[x] == c.entries[x]
  {
  }

  /** One more hit on the counters. */
  function Hit(c: Cache): (c': Cache)
    ensures c'.stats.hits == c.stats.hits + 1
    ensures c'.entries == c.entries && c'.recency == c.recency && c'.enabled == c.enabled
    ensures c'.stats.misses == c.stats.misses && c'.stats.invalidations == c.stats.invalidations
  {
    c.(stats := c.stats.(hits := c.stats.hits + 1))
  }

  /** `getMeeGroupId`.  Disabled: a direct query, no state change.  Enabled:
      fetch, then count a hit when the fetch produced data; a fetch that loads
      therefore counts one miss and one hit. */
  function GetMeeGroupId(c: Cache, b: Backend, service: string): (r: Step<Option<string>>)
    requires Valid(c)
    ensures Valid(r.cache)
    ensures !c.enabled ==> r.cache == c && r.out == DirectMeeGroupId(b.repo, service)
    ensures c.enabled && r.out.Err? ==> r.cache == c
    ensures c.enabled && r.out.Ok? ==>
      && r.cache.stats.hits == c.stats.hits + 1
      && service in r.cache.entries
      && r.out.value == r.cache.entries[service].meeGroupId
    ensures c.enabled ==>
      r.cache.stats.misses == c.stats.misses + (if service !in c.entries && r.out.Ok? then 1 else 0)
    ensures c.enabled && service !in c.entries && r.out.Ok? ==> r.out == DirectMeeGroupId(b.repo, service)
    ensures c.enabled && service in c.entries ==>
      r.out == Ok(c.entries[service].meeGroupId) && r.cache.entries == c.entries
    ensures c.enabled && service !in c.entries ==>
      (r.out.Err? <==> LoadFromDB(b.repo, b.parse, b.clock, service).Err?)
    ensures forall x | x in r.cache.entries && x != service :: x in c.entries && r.cache.entries[x] == c.entries[x]
    ensures c.enabled && service !in c.entries && r.out.Ok? ==>
      && Ok(r.cache.entries[service]) == LoadFromDB(b.repo, b.parse, b.clock, service)
      && (|c.recency| < Capacity ==> r.cache.entries.Keys == c.entries.Keys + {service})
      && (|c.recency| == Capacity ==> r.cache.entries.Keys == c.entries.Keys - {c.recency[0]} + {service})
    ensures c.enabled && service in c.entries ==> r.cache.recency[|r.cache.recency| - 1] == service
    ensures r.cache.stats.invalidations == c.stats.invalidations && r.cache.enabled == c.enabled
  {
    if !c.enabled then Step(c, DirectMeeGroupId(b.repo, service))
    else
      var f := Fetch(c, b, service);
      match f.out
      case Err(e) => Step(f.cache, Err(e))
      case Ok(data) =>
        assert service !in c.entries ==> Ok(data.meeGroupId) == DirectMeeGroupId(b.repo, service) by {
          if service !in c.entries {
            MeeGroupParity(b.repo, b.parse, b.clock, service);
          }
        }
        Step(Hit(f.cache), Ok(data.meeGroupId))
  }

  /** `getActiveTests`.  Disabled: the direct path, no state change.  Enabled:
      fetch, count a hit, and keep the cached tests active at `now`. */
  function GetActiveTests(c: Cache, b: Backend, now: int, service: string): (r: Step<seq<Test>>)
    requires Valid(c)
    ensures Valid(r.cache)
    ensures r.out.Ok? ==> forall t | t in r.out.value :: IsActive(t, now)
    ensures !c.enabled ==> r.cache == c && r.out == DirectActiveTests(b.repo, b.parse, now, service)
    ensures c.enabled && r.out.Err? ==> r.cache == c
    ensures c.enabled && r.out.Ok? ==>
      && r.cache.stats.hits == c.stats.hits + 1
      && service in r.cache.entries
      && r.out.value == FilterActive(r.cache.entries[service].tests, now)
    ensures c.enabled ==>
      r.cache.stats.misses == c.stats.misses + (if service !in c.entries && r.out.Ok? then 1 else 0)
    ensures c.enabled && service !in c.entries && r.out.Ok? ==>
      r.out == DirectActiveTests(b.repo, b.parse, now, service)
    ensures c.enabled && service in c.entries ==>
      r.out == Ok(FilterActive(c.entries[service].tests, now)) && r.cache.entries == c.entries
    ensures c.enabled && service !in c.entries ==>
      (r.out.Err? <==> LoadFromDB(b.repo, b.parse, b.clock, service).Err?)
    ensures forall x | x in r.cache.entries && x != service :: x in c.entries && r.cache.entries[x] == c.entries[x]
    ensures c.enabled && service !in c.entries && r.out.Ok? ==>
      && Ok(r.cache.entries[service]) == LoadFromDB(b.repo, b.parse, b.clock, service)
      && (|c.recency| < Capacity ==> r.cache.entries.Keys == c.entries.Keys + {service})
      && (|c.recency| == Capacity ==> r.cache.entries.Keys == c.entries.Keys - {c.recency[0]} + {service})
    ensures c.enabled && service in c.entries ==> r.cache.recency[|r.cache.recency| - 1] == service
    ensures r.cache.stats.invalidations == c.stats.invalidations && r.cache.enabled == c.enabled
  {
    if !c.enabled then Step(c, DirectActiveTests(b.repo, b.parse, now, service))
    else
      var f := Fetch(c, b, service);
      match f.out
      case Err(e) => Step(f.cache, Err(e))
      case Ok(data) =>
        assert service !in c.entries ==>
            Ok(FilterActive(data.tests, now)) == DirectActiveTests(b.repo, b.parse, now, service) by {
          if service !in c.entries {
            ActiveTestsParity(b.repo, b.parse, b.clock, now, service, data);
          }
        }
        Step(Hit(f.cache), Ok(FilterActive(data.tests, now)))
  }

  /** `invalidate`: drop one service and count one invalidation, whether or
      not the service was cached. */
  function Invalidate(c: Cache, service: string): (c': Cache)
    requires Valid(c)
    ensures Valid(c')
    ensures service !in c'.entries
    ensures forall x | x != service :: (x in c'.entries <==> x in c.entries)
    ensures forall x | x in c'.entries :: c'.entries[x] == c.entries[x]
    ensures c'.stats == c.stats.(invalidations := c.stats.invalidations + 1)
    ensures c'.enabled == c.enabled
  {
    c.(entries := c.entries - {service},
       recency := Without(c.recency, service),
       stats := c.stats.(invalidations := c.stats.invalidations + 1))
  }

  /** `invalidateAll`: empty the cache and count a single invalidation. */
  function InvalidateAll(c: Cache): (c': Cache)
    ensures Valid(c') && |c'.entries| == 0
    ensures c'.stats == c.stats.(invalidations := c.stats.invalidations + 1)
    ensures c'.enabled == c.enabled
  {
    c.(entries := map[], recency := [], stats := c.stats.(invalidations := c.stats.invalidations + 1))
  }

  /** After an invalidation the next fetch of that service loads afresh and
      counts a miss. */
  lemma InvalidateThenFetchReloads(c: Cache, b: Backend, service: string)
    requires Valid(c)
    requires LoadFromDB(b.repo, b.parse, b.clock, service).Ok?
    ensures var r := Fetch(Invalidate(c, service), b, service);
      && r.out == LoadFromDB(b.repo, b.parse, b.clock, service)
      && r.cache.stats.misses == c.stats.misses + 1
      && r.cache.stats.invalidations == c.stats.invalidations + 1
  {
  }

  /** The LRU's `fetch` on each service in turn, stopping at the first
      failure; what was loaded before it stays cached. */
  function FetchAll(c: Cache, b: Backend, services: seq<string>): (r: Step<()>)
    requires Valid(c)
    ensures Valid(r.cache)
    ensures r.cache.stats.hits == c.stats.hits && r.cache.stats.invalidations == c.stats.invalidations
    ensures r.cache.enabled == c.enabled
    ensures c.stats.misses <= r.cache.stats.misses <= c.stats.misses + |services|
    ensures (forall s | s in services :: LoadFromDB(b.repo, b.parse, b.clock, s).Ok?) ==> r.out.Ok?
    ensures r.out.Err? ==> exists s | s in services :: LoadFromDB(b.repo, b.parse, b.clock, s).Err?
    decreases |services|
  {
    if |services| == 0 then Step(c, Ok(()))
    else
      var f := Fetch(c, b, services[0]);
      match f.out
      case Err(e) => Step(f.cache, Err(e))
      case Ok(_) => FetchAll(f.cache, b, services[1..])
  }

  /** Every service a fetch sequence leaves cached either kept its old set
      or was listed and holds its load result. */
  lemma {:induction false} FetchAllOnlyLoadsListed(c: Cache, b: Backend, services: seq<string>)
    requires Valid(c)
    ensures var r := FetchAll(c, b, services).cache;
      forall x | x in r.entries ::
        || (x in c.entries && r.entries[x] == c.entries[x])
        || (x in services && Ok(r.entries[x]) == LoadFromDB(b.repo, b.parse, b.clock, x))
    decreases |services|
  {
    if |services| > 0 {
      var f := Fetch(c, b, services[0]);
      if f.out.Ok? {
        var rest := services[1..];
        FetchAllOnlyLoadsListed(f.cache, b, rest);
        var r := FetchAll(f.cache, b, rest).cache;
        assert FetchAll(c, b, services).cache == r;
        forall x | x in r.entries
          ensures || (x in c.entries && r.entries[x] == c.entries[x])
                  || (x in services && Ok(r.entries[x]) == LoadFromDB(b.repo, b.parse, b.clock, x))
        {
          if x in rest && Ok(r.entries[x]) == LoadFromDB(b.repo, b.parse, b.clock, x) {
            assert x in services;
          } else if x == services[0] {
            assert r.entries[x] == f.cache.entries[x] == f.out.value;
            assert services[0] !in c.entries ==> f.out.value == LoadFromDB(b.repo, b.parse, b.clock, x).value;
          }
        }
      }
    }
  }

  /** The first element of a duplicate-free listing is not among the rest,
      and the rest is duplicate-free. */
  lemma DistinctTail(services: seq<string>)
    requires Distinct(services) && |services| > 0
    ensures Distinct(services[1..]) && services[0] !in services[1..]
    ensures (set x | x in services) == {services[0]} + (set x | x in services[1..])
  {
    var rest := services[1..];
    forall i, j | 0 <= i < j < |rest| ensures rest[i] != rest[j] {
      assert rest[i] == services[i + 1] && rest[j] == services[j + 1];
    }
  }

  /** Appending a listing's head and then its tail appends the listing. */
  lemma AppendInOrder(r: seq<string>, s: string, rest: seq<string>, services: seq<string>)
    requires |services| > 0 && s == services[0] && rest == services[1..]
    ensures r + [s] + rest == r + services
  {
    assert services == [s] + rest;
  }

  /** Fetching distinct, uncached services into a cache with room for all of
      them loads each one exactly once: one miss apiece, nothing evicted. */
  lemma {:induction false} FetchAllLoadsEach(c: Cache, b: Backend, services: seq<string>)
    requires Valid(c) && Distinct(services)
    requires forall s | s in services :: s !in c.entries
    requires |c.recency| + |services| <= Capacity
    requires FetchAll(c, b, services).out.Ok?
    ensures var r := FetchAll(c, b, services).cache;
      && r.entries.Keys == c.entries.Keys + (set s | s in services)
      && |r.recency| == |c.recency| + |services|
      && r.recency == c.recency + services
      && r.stats.misses == c.stats.misses + |services|
    decreases |services|
  {
    if |services| == 0 {
      assert c.recency + services == c.recency;
    } else {
      var s := services[0];
      var rest := services[1..];
      DistinctTail(services);
      var f := Fetch(c, b, s);
      assert f.out.Ok? && FetchAll(c, b, services) == FetchAll(f.cache, b, rest);
      var keys := f.cache.entries.Keys;
      assert keys == c.entries.Keys + {s};
      assert forall x | x in rest :: x !in keys;
      FetchAllLoadsEach(f.cache, b, rest);
      AppendInOrder(c.recency, s, rest, services);
    }
  }

  /** `reload`: clear without counting an invalidation, then fetch every
      service the repository lists.  It does not look at the switch. */
  function Reload(c: Cache, b: Backend): (r: Step<()>)
    requires Valid(c)
    ensures Valid(r.cache)
    ensures r.cache.stats.hits == c.stats.hits && r.cache.stats.invalidations == c.stats.invalidations
    ensures r.cache.enabled == c.enabled
    ensures AllServices(b.repo).Err? ==> r.out.Err? && |r.cache.entries| == 0 && r.cache.stats == c.stats
    ensures AllServices(b.repo).Ok? ==>
      && ((forall s | s in AllServices(b.repo).value :: LoadFromDB(b.repo, b.parse, b.clock, s).Ok?) ==> r.out.Ok?)
      && (r.out.Err? ==> exists s | s in AllServices(b.repo).value :: LoadFromDB(b.repo, b.parse, b.clock, s).Err?)
    ensures forall x | x in r.cache.entries ::
      AllServices(b.repo).Ok? && x in AllServices(b.repo).value
      && Ok(r.cache.entries[x]) == LoadFromDB(b.repo, b.parse, b.clock, x)
  {
    var cleared := c.(entries := map[], recency := []);
    match AllServices(b.repo)
    case Err(e) => Step(cleared, Err(e))
    case Ok(services) =>
      FetchAllOnlyLoadsListed(cleared, b, services);
      FetchAll(cleared, b, services)
  }

  /** With a duplicate-free list of at most `Capacity` services, a successful
      reload caches exactly those services, each with its fresh load, and
      counts one miss per service. */
  lemma ReloadLoadsEveryService(c: Cache, b: Backend)
    requires Valid(c)
    requires AllServices(b.repo).Ok?
    requires Distinct(AllServices(b.repo).value) && |AllServices(b.repo).value| <= Capacity
    requires Reload(c, b).out.Ok?
    ensures var r := Reload(c, b).cache;
      var services := AllServices(b.repo).value;
      && r.entries.Keys == (set s | s in services)
      && r.recency == services
      && (forall s | s in services :: Ok(r.entries[s]) == LoadFromDB(b.repo, b.parse, b.clock, s))
      && r.stats.misses == c.stats.misses + |services|
  {
    var cleared := c.(entries := map[], recency := []);
    FetchAllLoadsEach(cleared, b, AllServices(b.repo).value);
  }

  /** `initialize`: with caching disabled nothing happens; otherwise fetch
      every listed service into the cache as it stands, without clearing. */
  function Initialize(c: Cache, b: Backend): (r: Step<()>)
    requires Valid(c)
    ensures Valid(r.cache)
    ensures !c.enabled ==> r == Step(c, Ok(()))
    ensures r.cache.stats.hits == c.stats.hits && r.cache.stats.invalidations == c.stats.invalidations
    ensures AllServices(b.repo).Err? ==> r.cache == c
    ensures c.enabled && AllServices(b.repo).Err? ==> r.out.Err?
    ensures c.enabled && AllServices(b.repo).Ok? ==>
      && ((forall s | s in AllServices(b.repo).value :: LoadFromDB(b.repo, b.parse, b.clock, s).Ok?) ==> r.out.Ok?)
      && (r.out.Err? ==> exists s | s in AllServices(b.repo).value :: LoadFromDB(b.repo, b.parse, b.clock, s).Err?)
    ensures forall x | x in r.cache.entries && x !in c.entries ::
      AllServices(b.repo).Ok? && x in AllServices(b.repo).value
      && Ok(r.cache.entries[x]) == LoadFromDB(b.repo, b.parse, b.clock, x)
    ensures forall x | x in r.cache.entries && x in c.entries ::
      r.cache.entries[x] == c.entries[x]
      || (AllServices(b.repo).Ok? && x in AllServices(b.repo).value
          && Ok(r.cache.entries[x]) == LoadFromDB(b.repo, b.parse, b.clock, x))
  {
    if !c.enabled then Step(c, Ok(()))
    else match AllServices(b.repo)
      case Err(e) => Step(c, Err(e))
      case Ok(services) =>
        FetchAllOnlyLoadsListed(c, b, services);
        FetchAll(c, b, services)
  }

  /** Initializing a cache that already holds services keeps them: when the
      listed services are distinct, not yet cached and fit beside the cached
      ones, a successful initialize adds exactly those services, each with its
      fresh load, and every service cached before keeps its set. */
  lemma InitializeKeepsAndLoads(c: Cache, b: Backend)
    requires Valid(c) && c.enabled
    requires AllServices(b.repo).Ok?
    requires var services := AllServices(b.repo).value;
      && Distinct(services)
      && (forall s | s in services :: s !in c.entries)
      && |c.recency| + |services| <= Capacity
    requires Initialize(c, b).out.Ok?
    ensures var r := Initialize(c, b).cache;
      var services := AllServices(b.repo).value;
      && r.entries.Keys == c.entries.Keys + (set s | s in services)
      && r.recency == c.recency + services
      && (forall x | x in c.entries :: r.entries[x] == c.entries[x])
      && (forall s | s in services :: Ok(r.entries[s]) == LoadFromDB(b.repo, b.parse, b.clock, s))
      && r.stats.misses == c.stats.misses + |services|
  {
    var services := AllServices(b.repo).value;
    assert Initialize(c, b) == FetchAll(c, b, services);
    FetchAllLoadsEach(c, b, services);
    FetchAllOnlyLoadsListed(c, b, services);
  }

  /** `getStats`: the counters, the number of cached services and the switch. */
  function GetStats(c: Cache): (r: StatsView)
    ensures r.hits == c.stats.hits && r.misses == c.stats.misses && r.invalidations == c.stats.invalidations
    ensures r.cacheEnabled == c.enabled
    ensures Valid(c) ==> r.cacheSize == |c.recency| <= Capacity
  {
    assert Valid(c) ==> |c.entries| == |c.recency| <= Capacity by {
      if Valid(c) {
        SizeBound(c);
      }
    }
    StatsView(c.stats.hits, c.stats.misses, c.stats.invalidations, |c.entries|, c.enabled)
  }
}

=== FILE: outcomes.dfy ===
/** Failure-carrying values shared by the transformer and the cache.

    The JavaScript code signals failure by throwing (a rejected promise from the
    database driver, a `SyntaxError` from `JSON.parse`); here every fallible step
    returns a `Result` instead, and `undefined` results become `Option`.
 */
module Outcomes {

  datatype Option<+T> = None | Some(value: T)

  /** Why a load or a direct query did not produce a value. */
  datatype Error =
    | QueryFailed(query: string)     // the database rejected one of the repository queries
    | MalformedJson(text: string)    // `JSON.parse` threw on a stored blob

  datatype Result<+T> = Ok(value: T) | Err(error: Error)
}

=== FILE: rows.dfy ===
/** The raw rows the repository hands to the cache, and a snapshot of the
    database that answers the repository's four queries.

    Each query either returns its rows or fails (the driver rejects); which
    queries fail is part of the snapshot.  Only rows with `use_yn = 'Y'` are
    in the snapshot, and rows come back in table order.
 */
module Rows {
  import opened Outcomes

  /** A row of the test query: `ab_test_id, ab_test_nm, ab_test_type,
      ab_test_status, ab_test_atrb_fltr, strt_dtm, end_dtm`.  Dates are
      millisecond timestamps; the filter column may be NULL. */
  datatype TestRow = TestRow(
    id: int,
    name: string,
    kind: string,
    status: string,
    attributeFilter: Option<string>,
    startTime: int,
    endTime: int)

  /** A row of the variant query: `ab_test_vrt_id, ab_test_id, vrt_key,
      vrt_vl, vrt_rng_strt, vrt_rng_end`. */
  datatype VariantRow = VariantRow(
    vrtId: int,
    testId: int,
    key: string,
    value: Option<string>,
    rangeStart: int,
    rangeEnd: int)

  /** A row of the group query: `mee_group_id`, a text key such as
      `mee_group_<service>`. */
  datatype MeeGroupRow = MeeGroupRow(meeGroupId: string)

  /** A database snapshot.  A service missing from `meeGroups` or `tests` has
      no rows there (the query succeeds with an empty result). */
  datatype Repository = Repository(
    services: Result<seq<string>>,
    meeGroups: map<string, Result<seq<MeeGroupRow>>>,
    tests: map<string, Result<seq<TestRow>>>,
    variantTable: Result<seq<VariantRow>>)

  /** `getAllServices`. */
  function AllServices(repo: Repository): Result<seq<string>>
  {
    repo.services
  }

  /** `getMeeGroupId`: the service's group rows. */
  function MeeGroupRows(repo: Repository, service: string): Result<seq<MeeGroupRow>>
  {
    if service in repo.meeGroups then repo.meeGroups[service] else Ok([])
  }

  /** `getABTestsByService`. */
  function TestRows(repo: Repository, service: string): Result<seq<TestRow>>
  {
    if service in repo.tests then repo.tests[service] else Ok([])
  }

  /** The `ab_test_id` column of the test rows, in row order. */
  function TestIds(rows: seq<TestRow>): (ids: seq<int>)
    ensures |ids| == |rows|
    ensures forall i | 0 <= i < |rows| :: ids[i] == rows[i].id
  {
    seq(|rows|, i requires 0 <= i < |rows| => rows[i].id)
  }

  /** The variant rows belonging to test `id`, in table order. */
  function RowsOf(id: int, rows: seq<VariantRow>): (r: seq<VariantRow>)
    ensures |r| <= |rows|
    ensures forall v :: v in r <==> v in rows && v.testId == id
  {
    if |rows| == 0 then []
    else if rows[0].testId == id then [rows[0]] + RowsOf(id, rows[1..])
    else RowsOf(id, rows[1..])
  }

  /** Grouping splits over concatenation, so the grouped rows keep their
      relative table order. */
  lemma {:induction false} RowsOfAppend(id: int, a: seq<VariantRow>, b: seq<VariantRow>)
    ensures RowsOf(id, a + b) == RowsOf(id, a) + RowsOf(id, b)
    decreases |a|
  {
    if |a| > 0 {
      assert (a + b)[1..] == a[1..] + b;
      RowsOfAppend(id, a[1..], b);
      if a[0].testId == id {
        assert [a[0]] + RowsOf(id, a[1..]) + RowsOf(id, b) == [a[0]] + (RowsOf(id, a[1..]) + RowsOf(id, b));
      }
    } else {
      assert a + b == b;
    }
  }

  /** The variant rows whose test is one of `ids`, in table order. */
  function RowsIn(ids: seq<int>, rows: seq<VariantRow>): (r: seq<VariantRow>)
    ensures forall v :: v in r <==> v in rows && v.testId in ids
  {
    if |rows| == 0 then []
    else if rows[0].testId in ids then [rows[0]] + RowsIn(ids, rows[1..])
    else RowsIn(ids, rows[1..])
  }

  /** `getVariantsByTestIds`: an empty id list answers `[]` without querying. */
  function VariantRows(repo: Repository, ids: seq<int>): (r: Result<seq<VariantRow>>)
    ensures |ids| == 0 ==> r == Ok([])
    ensures |ids| > 0 ==> (r.Err? <==> repo.variantTable.Err?)
    ensures r.Ok? && |ids| > 0 ==>
      forall v :: v in r.value <==> v in repo.variantTable.value && v.testId in ids
  {
    if |ids| == 0 then Ok([])
    else match repo.variantTable
      case Err(e) => Err(e)
      case Ok(rows) => Ok(RowsIn(ids, rows))
  }

  /** Grouping a pre-filtered table by a listed test id gives the same rows,
      in the same order, as grouping the whole table. */
  lemma {:induction false} RowsOfRowsIn(id: int, ids: seq<int>, rows: seq<VariantRow>)
    requires id in ids
    ensures RowsOf(id, RowsIn(ids, rows)) == RowsOf(id, rows)
    decreases |rows|
  {
    if |rows| > 0 {
      RowsOfRowsIn(id, ids, rows[1..]);
      if rows[0].testId in ids {
        assert ([rows[0]] + RowsIn(ids, rows[1..]))[1..] == RowsIn(ids, rows[1..]);
      }
    }
  }
}

=== FILE: transformer.dfy ===
/** The config transformer: repository rows to one service's experiment set
    (`loadFromDB`), the read-time "active" filter, and the cache-disabled read
    path that filters before it transforms.

    `JSON.parse` is the parameter `parse`, which may reject its text.
 */
module Transformer {
  import opened Outcomes
  import opened Rows

  /** A parsed JSON value; numbers are kept as integers. */
  datatype Json =
    | JNull
    | JBool(b: bool)
    | JNum(n: int)
    | JStr(s: string)
    | JArr(items: seq<Json>)
    | JObj(members: seq<(string, Json)>)

  /** What `JSON.parse` stands for: a value, or none when the text is malformed. */
  type Parser = string -> Option<Json>

  /** A transformed variant, `{id, key, ratio, payload}`; `None` is `undefined`. */
  datatype ConfigVariant = ConfigVariant(id: Option<int>, key: Option<string>, ratio: Option<int>, payload: Json)

  /** A transformed test. */
  datatype Test = Test(
    id: int,
    name: string,
    kind: string,
    status: string,
    attributeFilter: Json,
    startDate: int,
    endDate: int,
    variants: seq<ConfigVariant>)

  /** One service's snapshot: `{meeGroupId, tests, loadedAt}`. */
  datatype ExperimentSet = ExperimentSet(meeGroupId: Option<string>, tests: seq<Test>, loadedAt: int)

  /** `JSON.parse(column || '{}')`: a NULL or empty column reads as `{}`. */
  function ParseBlob(parse: Parser, column: Option<string>): (r: Result<Json>)
    ensures column == None || column == Some("") ==> r == Ok(JObj([]))
    ensures r.Err? <==> column.Some? && column.value != "" && parse(column.value).None?
  {
    match column
    case None => Ok(JObj([]))
    case Some(text) =>
      if text == "" then Ok(JObj([]))
      else match parse(text)
        case None => Err(MalformedJson(text))
        case Some(j) => Ok(j)
  }

  /** The variant projection reads `vrnt_id`, `vrnt_key`, `vrnt_ratio` and
      `vrnt_payload`, columns the variant query does not return: every field
      is `undefined` and the payload is `JSON.parse('{}')`. */
  function TransformVariant(row: VariantRow): (v: ConfigVariant)
    ensures v.id.None? && v.key.None? && v.ratio.None?
    ensures v.payload == JObj([])
  {
    ConfigVariant(None, None, None, JObj([]))
  }

  /** Transformed variants carry nothing of their row, so the payload parse
      never fails and two rows of a test are indistinguishable. */
  lemma TransformedVariantsCarryNoRowData(a: VariantRow, b: VariantRow)
    ensures TransformVariant(a) == TransformVariant(b)
    ensures TransformVariant(a).id.None? && TransformVariant(a).key.None? && TransformVariant(a).payload == JObj([])
  {
  }

  /** The transformed variants of test `id`: one per variant row of that test,
      in table order. */
  function VariantsOf(id: int, rows: seq<VariantRow>): (r: seq<ConfigVariant>)
    ensures |r| == |RowsOf(id, rows)|
    ensures forall i | 0 <= i < |r| :: r[i] == TransformVariant(RowsOf(id, rows)[i])
  {
    var own := RowsOf(id, rows);
    seq(|own|, i requires 0 <= i < |own| => TransformVariant(own[i]))
  }

  /** One test row with its variants; fails when its filter blob is malformed. */
  function TransformTest(parse: Parser, row: TestRow, variantRows: seq<VariantRow>): (r: Result<Test>)
    ensures r.Err? <==> ParseBlob(parse, row.attributeFilter).Err?
    ensures r.Ok? ==>
      && r.value.id == row.id && r.value.name == row.name && r.value.kind == row.kind
      && r.value.status == row.status
      && r.value.attributeFilter == ParseBlob(parse, row.attributeFilter).value
      && r.value.startDate == row.startTime && r.value.endDate == row.endTime
      && r.value.variants == VariantsOf(row.id, variantRows)
  {
    match ParseBlob(parse, row.attributeFilter)
    case Err(e) => Err(e)
    case Ok(filter) =>
      Ok(Test(row.id, row.name, row.kind, row.status, filter, row.startTime, row.endTime,
              VariantsOf(row.id, variantRows)))
  }

  /** `testRows.map(...)`: every row transformed, in row order; the first
      malformed blob aborts the whole map. */
  function TransformTests(parse: Parser, testRows: seq<TestRow>, variantRows: seq<VariantRow>): (r: Result<seq<Test>>)
    ensures r.Err? <==> exists i | 0 <= i < |testRows| :: ParseBlob(parse, testRows[i].attributeFilter).Err?
    ensures r.Ok? ==> |r.value| == |testRows|
    ensures r.Ok? ==> forall i | 0 <= i < |testRows| :: TransformTest(parse, testRows[i], variantRows) == Ok(r.value[i])
    decreases |testRows|
  {
    if |testRows| == 0 then Ok([])
    else match TransformTest(parse, testRows[0], variantRows)
      case Err(e) => Err(e)
      case Ok(t) =>
        match TransformTests(parse, testRows[1..], variantRows)
        case Err(e) => Err(e)
        case Ok(ts) => Ok([t] + ts)
  }

  /** The variant rows `loadFromDB` reads: none, without a query, when the
      service has no tests. */
  function VariantRowsForTests(repo: Repository, testRows: seq<TestRow>): (r: Result<seq<VariantRow>>)
    ensures |testRows| == 0 ==> r == Ok([])
    ensures |testRows| > 0 ==> r == VariantRows(repo, TestIds(testRows))
  {
    var ids := TestIds(testRows);
    if |ids| > 0 then VariantRows(repo, ids) else Ok([])
  }

  /** `meeGroup[0]?.mee_group_id`. */
  function FirstGroupId(rows: seq<MeeGroupRow>): (r: Option<string>)
    ensures r.None? <==> |rows| == 0
    ensures r.Some? ==> r.value == rows[0].meeGroupId
  {
    if |rows| > 0 then Some(rows[0].meeGroupId) else None
  }

  /** `loadFromDB` without its counter: read tests, then their variants, then
      the group, then parse every blob; `clock` is the load instant. */
  function LoadFromDB(repo: Repository, parse: Parser, clock: int, service: string): (r: Result<ExperimentSet>)
    ensures r.Ok? <==>
      && TestRows(repo, service).Ok?
      && (|TestRows(repo, service).value| > 0 ==> repo.variantTable.Ok?)
      && MeeGroupRows(repo, service).Ok?
      && forall i | 0 <= i < |TestRows(repo, service).value| ::
           ParseBlob(parse, TestRows(repo, service).value[i].attributeFilter).Ok?
    ensures r.Ok? ==>
      && r.value.loadedAt == clock
      && r.value.meeGroupId == FirstGroupId(MeeGroupRows(repo, service).value)
      && |r.value.tests| == |TestRows(repo, service).value|
  {
    match TestRows(repo, service)
    case Err(e) => Err(e)
    case Ok(testRows) =>
      match VariantRowsForTests(repo, testRows)
      case Err(e) => Err(e)
      case Ok(variantRows) =>
        match MeeGroupRows(repo, service)
        case Err(e) => Err(e)
        case Ok(groupRows) =>
          match TransformTests(parse, testRows, variantRows)
          case Err(e) => Err(e)
          case Ok(tests) => Ok(ExperimentSet(FirstGroupId(groupRows), tests, clock))
  }

  /** The shape of a load: test `i` is test row `i`, and its variants are
      exactly the variant rows carrying its id, in table order. */
  lemma LoadFromDBShape(repo: Repository, parse: Parser, clock: int, service: string, i: int)
    requires LoadFromDB(repo, parse, clock, service).Ok?
    requires 0 <= i < |TestRows(repo, service).value|
    ensures var row := TestRows(repo, service).value[i];
      var t := LoadFromDB(repo, parse, clock, service).value.tests[i];
      && t.id == row.id && t.name == row.name && t.kind == row.kind
      && t.status == row.status
      && t.attributeFilter == ParseBlob(parse, row.attributeFilter).value
      && t.startDate == row.startTime && t.endDate == row.endTime
      && t.variants == VariantsOf(row.id, repo.variantTable.value)
  {
    var rows := TestRows(repo, service).value;
    var ids := TestIds(rows);
    var table := repo.variantTable.value;
    assert ids[i] == rows[i].id;
    RowsOfRowsIn(rows[i].id, ids, table);
  }

  /** With no test rows the variant table is never consulted: a failing
      variant query cannot fail the load, and the result has no tests. */
  lemma LoadSkipsVariantQueryWithoutTests(repo: Repository, parse: Parser, clock: int, service: string,
                                          table: Result<seq<VariantRow>>)
    requires TestRows(repo, service) == Ok([])
    ensures LoadFromDB(repo.(variantTable := table), parse, clock, service) == LoadFromDB(repo, parse, clock, service)
    ensures LoadFromDB(repo, parse, clock, service).Ok? ==> LoadFromDB(repo, parse, clock, service).value.tests == []
  {
    assert TestRows(repo.(variantTable := table), service) == Ok([]);
  }

  /** The read-time filter: active status and `startDate <= now <= endDate`,
      both bounds inclusive. */
  predicate IsActive(t: Test, now: int)
  {
    t.status == "ACTIVE" && t.startDate <= now && now <= t.endDate
  }

  /** The same filter applied to an untransformed row. */
  predicate RowIsActive(row: TestRow, now: int)
  {
    row.status == "ACTIVE" && row.startTime <= now && now <= row.endTime
  }

  /** The tests active at `now`, in stored order. */
  function FilterActive(tests: seq<Test>, now: int): (r: seq<Test>)
    ensures |r| <= |tests|
    ensures forall t :: t in r <==> t in tests && IsActive(t, now)
  {
    if |tests| == 0 then []
    else if IsActive(tests[0], now) then [tests[0]] + FilterActive(tests[1..], now)
    else FilterActive(tests[1..], now)
  }

  /** Filtering splits over concatenation, so it keeps the stored order. */
  lemma {:induction false} FilterActiveAppend(a: seq<Test>, b: seq<Test>, now: int)
    ensures FilterActive(a + b, now) == FilterActive(a, now) + FilterActive(b, now)
    decreases |a|
  {
    if |a| > 0 {
      assert (a + b)[1..] == a[1..] + b;
      FilterActiveAppend(a[1..], b, now);
      if IsActive(a[0], now) {
        assert [a[0]] + FilterActive(a[1..], now) + FilterActive(b, now)
            == [a[0]] + (FilterActive(a[1..], now) + FilterActive(b, now));
      }
    } else {
      assert a + b == b;
    }
  }

  /** The test rows active at `now`, in row order. */
  function FilterActiveRows(rows: seq<TestRow>, now: int): (r: seq<TestRow>)
    ensures |r| <= |rows|
    ensures forall row :: row in r <==> row in rows && RowIsActive(row, now)
  {
    if |rows| == 0 then []
    else if RowIsActive(rows[0], now) then [rows[0]] + FilterActiveRows(rows[1..], now)
    else FilterActiveRows(rows[1..], now)
  }

  /** Filtering rows and then transforming them gives the transformed tests
      filtered, whenever transforming all rows succeeds. */
  lemma {:induction false} FilterThenTransform(parse: Parser, rows: seq<TestRow>, variantRows: seq<VariantRow>, now: int)
    requires TransformTests(parse, rows, variantRows).Ok?
    ensures TransformTests(parse, FilterActiveRows(rows, now), variantRows)
         == Ok(FilterActive(TransformTests(parse, rows, variantRows).value, now))
    decreases |rows|
  {
    if |rows| > 0 {
      var ts := TransformTests(parse, rows, variantRows).value;
      FilterThenTransform(parse, rows[1..], variantRows, now);
      assert ts[1..] == TransformTests(parse, rows[1..], variantRows).value;
      assert RowIsActive(rows[0], now) == IsActive(ts[0], now);
      if RowIsActive(rows[0], now) {
        var fr := FilterActiveRows(rows, now);
        assert fr[0] == rows[0] && fr[1..] == FilterActiveRows(rows[1..], now);
      }
    }
  }

  /** The cache-disabled `getActiveTests`: read tests and their variants,
      keep the active rows, then transform only those.  The group is not read. */
  function DirectActiveTests(repo: Repository, parse: Parser, now: int, service: string): (r: Result<seq<Test>>)
    ensures r.Ok? ==> forall t | t in r.value :: IsActive(t, now)
    ensures r.Ok? ==> TestRows(repo, service).Ok? && |r.value| <= |TestRows(repo, service).value|
    ensures r.Ok? ==>
      var active := FilterActiveRows(TestRows(repo, service).value, now);
      |r.value| == |active| && forall i | 0 <= i < |r.value| :: r.value[i].id == active[i].id
    ensures r.Ok? <==>
      && TestRows(repo, service).Ok?
      && (|TestRows(repo, service).value| > 0 ==> repo.variantTable.Ok?)
      && forall row | row in FilterActiveRows(TestRows(repo, service).value, now) ::
           ParseBlob(parse, row.attributeFilter).Ok?
    ensures r.Ok? ==>
      var active := FilterActiveRows(TestRows(repo, service).value, now);
      forall i | 0 <= i < |r.value| ::
        active[i] in active
        && TransformTest(parse, active[i], RowsIn(TestIds(TestRows(repo, service).value), repo.variantTable.value)) == Ok(r.value[i])
  {
    match TestRows(repo, service)
    case Err(e) => Err(e)
    case Ok(testRows) =>
      match VariantRowsForTests(repo, testRows)
      case Err(e) => Err(e)
      case Ok(variantRows) =>
        var active := FilterActiveRows(testRows, now);
        match TransformTests(parse, active, variantRows)
        case Err(e) => Err(e)
        case Ok(tests) =>
          assert forall t | t in tests :: IsActive(t, now) by {
            forall t | t in tests ensures IsActive(t, now) {
              var i :| 0 <= i < |tests| && tests[i] == t;
              assert active[i] in active && TransformTest(parse, active[i], variantRows) == Ok(t);
            }
          }
          Ok(tests)
  }

  /** Parity: whenever the cached path's load succeeds, the uncached path
      yields exactly the loaded tests that are active at `now`, in order. */
  lemma ActiveTestsParity(repo: Repository, parse: Parser, clock: int, now: int, service: string, loaded: ExperimentSet)
    requires LoadFromDB(repo, parse, clock, service) == Ok(loaded)
    ensures DirectActiveTests(repo, parse, now, service) == Ok(FilterActive(loaded.tests, now))
  {
    var rows := TestRows(repo, service).value;
    var variantRows := VariantRowsForTests(repo, rows).value;
    FilterThenTransform(parse, rows, variantRows, now);
  }

  /** The parity holds in one direction only: an inactive test with a
      malformed blob fails the load, yet the uncached path filters it out
      before parsing and succeeds. */
  lemma ParityIsOneWay()
    ensures var row := TestRow(1, "t", "RANDOM", "INACTIVE", Some("{"), 0, 10);
      var repo := Repository(Ok(["svc"]), map[], map["svc" := Ok([row])], Ok([]));
      var parse: Parser := (text: string) => None;
      && LoadFromDB(repo, parse, 0, "svc").Err?
      && DirectActiveTests(repo, parse, 5, "svc") == Ok([])
  {
    var row := TestRow(1, "t", "RANDOM", "INACTIVE", Some("{"), 0, 10);
    var parse: Parser := (text: string) => None;
    assert FilterActiveRows([row], 5) == [];
    assert ParseBlob(parse, row.attributeFilter).Err?;
  }

  /** The cache-disabled `getMeeGroupId`: the first group row's id, if any. */
  function DirectMeeGroupId(repo: Repository, service: string): (r: Result<Option<string>>)
    ensures r.Err? <==> MeeGroupRows(repo, service).Err?
    ensures r.Ok? ==> (r.value.None? <==> |MeeGroupRows(repo, service).value| == 0)
    ensures r.Ok? && |MeeGroupRows(repo, service).value| > 0 ==>
      r.value == Some(MeeGroupRows(repo, service).value[0].meeGroupId)
  {
    match MeeGroupRows(repo, service)
    case Err(e) => Err(e)
    case Ok(rows) => Ok(FirstGroupId(rows))
  }

  /** A successful load reports the same group id as the direct query. */
  lemma MeeGroupParity(repo: Repository, parse: Parser, clock: int, service: string)
    requires LoadFromDB(repo, parse, clock, service).Ok?
    ensures DirectMeeGroupId(repo, service) == Ok(LoadFromDB(repo, parse, clock, service).value.meeGroupId)
  {
  }
}
